=== FILE: README.md ===
# Post Promoter Pro share scheduling, modelled in Dafny

This project models the share-scheduling core of the Post Promoter Pro
WordPress plugin, `includes/share-functions.php`. The plugin plans future
social shares for a post when it is published, and it sends each share once
when its scheduled job fires. WordPress itself becomes explicit inputs:
options, post meta, filters, transients and the clock.

- `php.dfy` (`Php`): the PHP built-ins the code relies on, with PHP's
  semantics: decimal rendering of integers, the `(int)` cast of strings
  (leading whitespace, sign, digit run) and of floats (truncation toward
  zero), `explode`/`implode`, `substr`, `strtolower` and `strpos`.
- `settings.dfy` (`Settings`): the `$ppp_options` entries the code reads.
- `publish_gate.dfy` (`PublishGate`): `ppp_share_on_publish`.
- `planner.dfy` (`Planner`): `ppp_get_timestamps`, `ppp_is_day_enabled`,
  `ppp_get_default_times` and `ppp_get_day_default_time`. The time source is
  the post's override when it has one, and the enabled default days
  otherwise. Each `H:MMam/pm` string is parsed and converted to 24 hours,
  then corrected by the truncated, negated GMT offset. Only instants strictly
  after now are kept. The result is a map keyed by instant, so two slots at
  the same instant collide and the later one wins. Only the last character of
  a day key names the day offset, so `day10` shares on day 0.
- `planner_examples.dfy` (`PlannerExamples`): the planner on concrete time
  strings and on a concrete override.
- `dispatcher.dfy` (`Dispatcher`): `ppp_share_post`. A 60-second transient
  lease guards each share name. The call records what it does, in order:
  the lease is set, the share is sent, and the status is saved in debug mode.
  Sequential calls are modelled by `RunCalls`.
- `link_generator.dfy` (`LinkGenerator`): `ppp_generate_link` and
  `ppp_generate_link_tracking`. The model has the code's nested form and a
  stage-list form, and proves the two equal.
- `media.dfy` (`Media`): `ppp_post_has_media`, including the `!strpos`
  test. That test accepts a URL that *starts* with the placeholder path,
  because `strpos` returns position 0 and `!0` is true.

Three behaviours of the code are modelled as written:

- Line 75 takes the day offset with `substr($key, -1)`, so only the key's last
  character counts and `day10` is day offset 0.
- Line 71 skips every override day whose `enabled` value is `!== '1'`.
- Line 270 tests `!strpos(...)`, so the placeholder image is rejected only
  when its path occurs and does not start the URL.

Calendar arithmetic is linear. The epoch instant is an abstract
`midnight(month, day, year)`, plus 24 hours per day offset, plus the hours
and minutes.

## Model

| member | source | states |
|---|---|---|
| PublishGate.ShareOnPublish | includes/share-functions.php:12-30 | the action fires exactly when the password is empty, the new status is 'publish' and the old one is not, `post_status` is set, and the post type is among the filtered allowed types |
| PublishGate.ProtectedPostNeverFires | includes/share-functions.php:13-16 | a password-protected post never fires, whatever the statuses and allow-list |
| PublishGate.RepublishNeverFires | includes/share-functions.php:18 | a publish-to-publish save never fires |
| PublishGate.FiresOncePerPublication | includes/share-functions.php:18-28 | along a status history, between two firings the post has left 'publish' |
| Planner.DefaultTimesUpTo | includes/share-functions.php:117-129 | the default loop yields a slot for a day exactly when that day is in 1..n and enabled, each with the day's key and default time |
| Planner.DefaultTimesFromOptions | includes/share-functions.php:105-144 | with the day filter unhooked, the default source holds exactly the keys 'day'+d for d in 1..count whose 'days' entry is 'on', each with its configured time or '8:00am' |
| Planner.EnabledOverrides | includes/share-functions.php:46-73 | an override slot is kept exactly when its 'enabled' value is '1'; a missing value never is |
| Planner.HourConversion | includes/share-functions.php:81-87 | for hours 1..12: 12am gives 0, 12pm gives 12, other pm hours gain 12, other am hours are unchanged; the result is in 0..23 and reads back to the same clock-face hour |
| Planner.HourConversionOnto | includes/share-functions.php:81-87 | every hour 0..23 comes from its clock-face reading |
| Planner.ParseFormatted | includes/share-functions.php:76-79 | parsing 'H:MM' plus a two-letter suffix gives back H, MM and the suffix lower-cased |
| PlannerExamples.HourExamples | includes/share-functions.php:76-87 | '12:00am' is hour 0, '12:00pm' 12, '1:00pm' 13, '11:00pm' 23, '1:00am' 1 |
| PlannerExamples.ParseNineAm | includes/share-functions.php:76-79 | '9:00am' reads as 9 hours, 0 minutes, 'am' |
| Planner.Plan | includes/share-functions.php:93-95 | every planned instant is strictly after now |
| Planner.GetTimestamps | includes/share-functions.php:40-99 | every timestamp returned is strictly after now |
| Planner.PlanSound | includes/share-functions.php:91-95 | every planned instant belongs to a slot at that instant, carries its name, and no later slot shares the instant |
| Planner.PlanComplete | includes/share-functions.php:91-95 | every slot whose instant is after now is planned |
| Planner.PlanKeys | includes/share-functions.php:91-95 | the planned instants are exactly the slots' instants after now |
| Planner.SameInstantKeepsLater | includes/share-functions.php:94 | two slots at the same future instant leave a single entry named after the later slot |
| Planner.OverrideSharesOnlyEnabledDays | includes/share-functions.php:46-95 | with an override, each planned share is an override day enabled with '1', at its instant, named after its key's last character |
| Planner.DefaultEnabledDaysPlanned | includes/share-functions.php:65-95 | without an override, every enabled default day in 1..count whose instant is after now is planned |
| Planner.OverrideEnabledDaysPlanned | includes/share-functions.php:65-95 | with an override, every enabled day whose instant is after now is planned |
| Planner.DefaultSharesOnlyEnabledDays | includes/share-functions.php:65-95 | without an override, each planned share is an enabled default day in 1..count, named after the last digit of the day number |
| Planner.DayPartOfDayKey | includes/share-functions.php:75 | the day offset and name part of 'day'+d are d mod 10 |
| Planner.OffsetTruncatesFraction | includes/share-functions.php:44 | the GMT correction is the negated offset truncated toward zero: +5.5 gives -5, -3.5 gives +3 |
| Planner.ShareNameRoundTrip | includes/share-functions.php:94 | splitting 'sharedate_<d>_<id>' on '_' gives 'sharedate', d and the id, which casts back to the id |
| Planner.ShareNamesDistinct | includes/share-functions.php:94 | two different posts get different share names for the same day part |
| PlannerExamples.OverrideExample | includes/share-functions.php:46-96 | a post whose override enables day 1 at a time reading 9:00am and leaves day 2 unchecked plans exactly one share, 'sharedate_1_<id>', at day 1, 9:00 corrected by the offset, when that is still ahead |
| PlannerExamples.OverrideNineAm | includes/share-functions.php:46-96 | the same example with the time string '9:00am' itself |
| Dispatcher.SharePost | includes/share-functions.php:152-176 | nothing happens while the lease is live; otherwise the call's effects are exactly, in order, the guard transient set to expire at now+60 (no other transient changes), the built message sent once with the post's media, and in debug mode the status saved; status meta changes only when enable_debug is '1', and then only '_ppp-<name>-status' is written, with the send's result |
| Dispatcher.LiveLeaseBlocks | includes/share-functions.php:157-159 | any run of calls for a name whose lease is live at each call's time changes nothing and sends nothing |
| Dispatcher.DuplicateWithinLease | includes/share-functions.php:155-162 | after a call that sent, a second call with the same name within 60 seconds sends nothing and changes nothing |
| Dispatcher.AtMostOneSendPerWindow | includes/share-functions.php:155-162 | calls for one name within a 60-second window send at most once, and exactly once if no lease was live at its start |
| Dispatcher.ExpiredLeaseSendsAgain | includes/share-functions.php:161-162 | once the 60-second lease has passed, the same name is sent again |
| Dispatcher.OtherNamesUnaffected | includes/share-functions.php:157-162 | a call for one name leaves every other name's lease as it was |
| Dispatcher.NameCarriesDayPart | includes/share-functions.php:167-168 | part 1 of a planned name, split on '_', is the day part the planner wrote |
| LinkGenerator.Stages | includes/share-functions.php:216-231 | the shortener stage is present exactly when it is enabled and the share is scheduled; tracking stages are present exactly when tracking is enabled, analytics before the tracking hook, and precede the shortener; the share-link filter comes last; each stage occurs at most once |
| LinkGenerator.GenerateLinkIsPipeline | includes/share-functions.php:216-253 | the generated link is the permalink passed through those stages in order |
| LinkGenerator.PlainLink | includes/share-functions.php:218-230 | with tracking and shortening off, the link is the filtered permalink |
| LinkGenerator.UnscheduledNeverShortened | includes/share-functions.php:224-227 | an unscheduled link does not depend on any shortener setting |
| LinkGenerator.TrackingBeforeShortener | includes/share-functions.php:220-227 | with both features on, the shortener receives the tracked link |
| Media.PostHasMedia | includes/share-functions.php:262-275 | a URL is returned exactly when media is wanted, the post id and network are non-empty, and the looked-up thumbnail URL is non-empty and either lacks the placeholder path or starts with it; the URL returned is that thumbnail URL |
| Media.ThumbnailShared | includes/share-functions.php:267-271 | a non-empty thumbnail free of the placeholder path is returned |
| Media.PlaceholderNotShared | includes/share-functions.php:270-274 | a thumbnail with the placeholder path after position 0, and not at 0, gives no media |
| Media.PlaceholderAtStartShared | includes/share-functions.php:270 | any thumbnail URL that starts with the placeholder path, such as the path followed by a query string, is returned as media |
| Media.NoMediaWithoutRequest | includes/share-functions.php:263-265 | no media when it is not wanted or the post id or network is empty |
| Php.IntCastOfNatToString | includes/share-functions.php:77 | casting an integer's decimal rendering back gives the integer |
| Php.ExplodeImplode | includes/share-functions.php:167 | exploding joined separator-free parts gives the parts back |
| Php.ImplodeExplode | includes/share-functions.php:76 | joining the exploded parts gives the string back |
| Php.TruncateToInt | includes/share-functions.php:44 | the cast of a number lies within one of it, on the zero side |
| Php.FindFrom | includes/share-functions.php:270 | `strpos` returns the first position where the needle occurs, or none when it occurs nowhere |

## Left out

- `ppp_set_social_tokens` (lines 182-208) is not modelled. It is an HTTP fetch with JSON decoding, cached in a transient.
- Hook dispatch is not modelled. The `do_action` at line 28 becomes the gate's boolean result. Filters are function parameters, and an unhooked filter is the identity.
- The `ppp_get_timestamps` filter at line 98 is taken as the identity.
- Calendar semantics are abstract. This covers `mktime` normalisation, time zones and daylight saving. The re-keying through `strtotime(date_i18n(...))` at line 94 is taken as the identity.
- The collaborators defined outside this file are function parameters: `ppp_send_tweet`, `ppp_tw_build_share_message`, `ppp_tw_use_media`, `ppp_share_days_count`, `ppp_link_tracking_enabled` and `ppp_is_shortener_enabled`.
- The transient guard is modelled for sequential calls only. Its check-then-set is not atomic, so concurrent triggers can both send.
- The transient store keeps only each guard's expiry, because the code stores only the value 'true' under those names.
- `get_post` at line 163 has no effect on the result and is dropped.
- Planner.DayOffset: a day key whose last character is not a digit gets offset 0. That is PHP 7's behaviour; PHP 8 raises a TypeError there. The model assumes day keys end in a digit, as the keys built at line 123 do; override keys come from outside this file.
- Php.IntCast: exponent forms such as "1e2" and 64-bit saturation are not modelled.
- Dispatcher.DebugEnabled: `enable_debug == '1'` is modelled as string equality. Other numeric spellings of one, such as "01", also pass PHP's loose comparison. The model assumes the option holds "1" when debug is on; the code that stores it is outside this file.
- Override entries without a 'time' field are not modelled, and neither is override data that is not an array.
- `time()` is read once per call: `Site.now` for the planner and the `now` of `SharePost` for the dispatcher. Line 93 re-reads it for every slot, so a slot at a second the clock reaches during the loop can be dropped by the code but is planned by the model. Likewise `get_transient` (line 157) and `set_transient` (line 162) each read the clock themselves. The completeness lemmas `Planner.PlanComplete`, `Planner.PlanKeys`, `Planner.DefaultEnabledDaysPlanned` and `Planner.OverrideEnabledDaysPlanned` hold for a clock that stands still during the call.
- `gmt_offset` is a mathematical real, so float rounding is not modelled.
- Post ids are natural numbers.

=== FILE: dispatcher.dfy ===
/** The share dispatcher `ppp_share_post`: a transient lease guards each share
    name, then the message is built and sent and, in debug mode, the result is
    saved on the post. The transient store and the post meta are an explicit
    state; message building and sending are explicit functions. */
module Dispatcher {
  import opened Php
  import opened Settings
  import Media
  import Planner

  /** How long the guard transient lives, in seconds. */
  const LeaseSeconds := 60

  /** The transients (name to expiry instant) and the saved share statuses
      (post id and meta key to the network's result). */
  datatype Store = Store(transients: map<string, int>, statusMeta: map<(nat, string), string>)

  /** What one call does, in order. */
  datatype Effect =
    | LeaseSet(key: string, expires: int)
    | Sent(message: string, postId: nat, media: Media.Media)
    | StatusSaved(postId: nat, metaKey: string, status: string)

  /** The collaborators a share goes through. */
  datatype Network = Network(
    buildMessage: (nat, string) -> string,              // ppp_tw_build_share_message
    useMedia: (nat, Option<string>) -> bool,            // ppp_tw_use_media, given the name's day part
    thumbs: Media.ThumbSource,                          // thumbnail lookups for ppp_post_has_media
    sendTweet: (string, nat, Media.Media) -> string)    // ppp_send_tweet

  datatype Outcome = Outcome(store: Store, effects: seq<Effect>)

  function GuardKey(name: string): string {
    "ppp_sharing" + name
  }

  function StatusKey(name: string): string {
    "_ppp-" + name + "-status"
  }

  /** `get_transient` returns the guard while its expiry has not passed. */
  predicate LeaseLive(store: Store, name: string, now: int) {
    var key := GuardKey(name);
    key in store.transients && now <= store.transients[key]
  }

  predicate DebugEnabled(opts: Options) {
    opts.enableDebug == Some("1")
  }

  /** `explode('_', $name)[$i]`, None when the part does not exist. */
  function NamePart(name: string, i: nat): Option<string> {
    var parts := Explode('_', name);
    if i < |parts| then Some(parts[i]) else None
  }

  function SentCount(effects: seq<Effect>): nat {
    if |effects| == 0 then 0
    else SentCount(effects[..|effects| - 1]) + (if effects[|effects| - 1].Sent? then 1 else 0)
  }

  lemma {:induction false} SentCountAppend(a: seq<Effect>, b: seq<Effect>)
    ensures SentCount(a + b) == SentCount(a) + SentCount(b)
  {
    if |b| > 0 {
      SentCountAppend(a, b[..|b| - 1]);
      assert (a + b)[..|a + b| - 1] == a + b[..|b| - 1];
    } else {
      assert a + b == a;
    }
  }

  /** The message `ppp_tw_build_share_message` builds for the share. */
  function ShareMessage(net: Network, postId: nat, name: string): string {
    net.buildMessage(postId, name)
  }

  /** The media for the share: the Twitter image when the name's day part asks for one. */
  function ShareMedia(net: Network, postId: nat, name: string): Media.Media {
    Media.PostHasMedia(postId, "tw", net.useMedia(postId, NamePart(name, 1)), net.thumbs)
  }

  /** What `ppp_send_tweet` returns for the share. */
  function ShareStatus(net: Network, postId: nat, name: string): string {
    net.sendTweet(ShareMessage(net, postId, name), postId, ShareMedia(net, postId, name))
  }

  /** `ppp_share_post($post_id, $name)` at clock reading `now`. */
  function SharePost(opts: Options, net: Network, store: Store, now: int, postId: nat, name: string): (r: Outcome)
    ensures r.effects == [] <==> LeaseLive(store, name, now)
    ensures LeaseLive(store, name, now) ==> r.store == store
    ensures !LeaseLive(store, name, now) ==>
              r.effects[0] == LeaseSet(GuardKey(name), now + LeaseSeconds) && SentCount(r.effects) == 1
    ensures forall i :: 0 <= i < |r.effects| && r.effects[i].Sent? ==>
              exists j :: 0 <= j < i && r.effects[j] == LeaseSet(GuardKey(name), now + LeaseSeconds)
    ensures !LeaseLive(store, name, now) ==> LeaseLive(r.store, name, now + LeaseSeconds)
    ensures r.store.transients - {GuardKey(name)} == store.transients - {GuardKey(name)}
    ensures !DebugEnabled(opts) ==> r.store.statusMeta == store.statusMeta
    ensures (exists i :: 0 <= i < |r.effects| && r.effects[i].StatusSaved?) <==>
              !LeaseLive(store, name, now) && DebugEnabled(opts)
    ensures !LeaseLive(store, name, now) ==>
              && r.store.transients == store.transients[GuardKey(name) := now + LeaseSeconds]
              && r.effects[1] == Sent(ShareMessage(net, postId, name), postId, ShareMedia(net, postId, name))
    ensures !LeaseLive(store, name, now) ==>
              r.effects[2..] == (if DebugEnabled(opts) then [StatusSaved(postId, StatusKey(name), ShareStatus(net, postId, name))] else [])
    ensures !LeaseLive(store, name, now) && DebugEnabled(opts) ==>
              r.store.statusMeta == store.statusMeta[(postId, StatusKey(name)) := ShareStatus(net, postId, name)]
  {
    if LeaseLive(store, name, now) then
      Outcome(store, [])
    else
      var key := GuardKey(name);
      var leased := store.(transients := store.transients[key := now + LeaseSeconds]);
      var message := ShareMessage(net, postId, name);
      var media := ShareMedia(net, postId, name);
      var status := ShareStatus(net, postId, name);
      var steps := [LeaseSet(key, now + LeaseSeconds), Sent(message, postId, media)];
      assert SentCount(steps) == 1 by {
        assert steps[..1] == [LeaseSet(key, now + LeaseSeconds)];
        assert steps[..1][..0] == [];
        assert SentCount(steps[..1]) == 0;
      }
      if DebugEnabled(opts) then
        var saved := StatusSaved(postId, StatusKey(name), status);
        assert SentCount(steps + [saved]) == 1 by {
          assert (steps + [saved])[..2] == steps;
        }
        Outcome(leased.(statusMeta := leased.statusMeta[(postId, StatusKey(name)) := status]), steps + [saved])
      else
        Outcome(leased, steps)
  }

  /** One scheduled trigger: the clock reading and the arguments. */
  datatype Call = Call(now: int, postId: nat, name: string)

  /** Triggers delivered one after another. */
  function RunCalls(opts: Options, net: Network, store: Store, calls: seq<Call>): Outcome
    decreases |calls|
  {
    if |calls| == 0 then Outcome(store, [])
    else
      var first := SharePost(opts, net, store, calls[0].now, calls[0].postId, calls[0].name);
      var rest := RunCalls(opts, net, first.store, calls[1..]);
      Outcome(rest.store, first.effects + rest.effects)
  }

  /** While the lease on a name is live, triggers for that name do nothing. */
  lemma {:induction false} LiveLeaseBlocks(opts: Options, net: Network, store: Store, calls: seq<Call>, name: string)
    requires forall i :: 0 <= i < |calls| ==> calls[i].name == name && LeaseLive(store, name, calls[i].now)
    ensures RunCalls(opts, net, store, calls) == Outcome(store, [])
  {
    if |calls| > 0 {
      LiveLeaseBlocks(opts, net, store, calls[1..], name);
    }
  }

  /** After a trigger that sent, a second trigger for the same name within the
      lease sends nothing and changes nothing. */
  lemma DuplicateWithinLease(opts: Options, net: Network, store: Store, now: int, later: int, postId: nat, name: string)
    requires !LeaseLive(store, name, now) && now <= later <= now + LeaseSeconds
    ensures var first := SharePost(opts, net, store, now, postId, name);
            SharePost(opts, net, first.store, later, postId, name) == Outcome(first.store, [])
  {
  }

  /** Triggers for one name whose clock readings all fall in one 60-second
      window send at most once, and exactly once when no lease was live at its start. */
  lemma {:induction false} AtMostOneSendPerWindow(opts: Options, net: Network, store: Store, calls: seq<Call>, name: string, start: int)
    requires forall i :: 0 <= i < |calls| ==> calls[i].name == name && start <= calls[i].now <= start + LeaseSeconds
    ensures SentCount(RunCalls(opts, net, store, calls).effects) <= 1
    ensures |calls| > 0 && !LeaseLive(store, name, start) ==>
              SentCount(RunCalls(opts, net, store, calls).effects) == 1
  {
    if |calls| > 0 {
      var c := calls[0];
      var first := SharePost(opts, net, store, c.now, c.postId, c.name);
      var rest := RunCalls(opts, net, first.store, calls[1..]);
      SentCountAppend(first.effects, rest.effects);
      if LeaseLive(store, name, c.now) {
        AtMostOneSendPerWindow(opts, net, first.store, calls[1..], name, start);
      } else {
        LiveLeaseBlocks(opts, net, first.store, calls[1..], name);
      }
    }
  }

  /** The lease is not a lock: once it has expired the same name is sent again. */
  lemma ExpiredLeaseSendsAgain(opts: Options, net: Network, store: Store, now: int, later: int, postId: nat, name: string)
    requires !LeaseLive(store, name, now) && later > now + LeaseSeconds
    ensures var first := SharePost(opts, net, store, now, postId, name);
            SentCount(SharePost(opts, net, first.store, later, postId, name).effects) == 1
  {
  }

  /** The guard of one name never blocks another. */
  lemma OtherNamesUnaffected(opts: Options, net: Network, store: Store, now: int, postId: nat, name: string, other: string, t: int)
    requires other != name
    ensures LeaseLive(SharePost(opts, net, store, now, postId, name).store, other, t) <==> LeaseLive(store, other, t)
  {
    var r := SharePost(opts, net, store, now, postId, name);
    var k := GuardKey(other);
    assert k != GuardKey(name) by {
      assert k[|"ppp_sharing"|..] == other;
      assert GuardKey(name)[|"ppp_sharing"|..] == name;
    }
    assert k in r.store.transients - {GuardKey(name)} <==> k in store.transients - {GuardKey(name)};
  }

  /** The dispatcher reads back, as part 1 of the name, exactly the day part
      the planner wrote, unless that character is itself '_'. */
  lemma NameCarriesDayPart(key: string, postId: nat)
    requires '_' !in Planner.DayPart(key)
    ensures NamePart(Planner.ShareName(Planner.DayPart(key), postId), 1) == Some(Planner.DayPart(key))
  {
    Planner.ShareNameRoundTrip(Planner.DayPart(key), postId);
  }
}

=== FILE: link_generator.dfy ===
/** The link pipeline: `ppp_generate_link` and `ppp_generate_link_tracking`.
    The permalink, the feature flags, the configured provider names and every
    filter are explicit inputs; an unhooked filter is the identity. */
module LinkGenerator {

  datatype LinkSettings = LinkSettings(
    permalink: nat -> string,                            // get_permalink
    trackingEnabled: bool,                               // ppp_link_tracking_enabled()
    shortenerEnabled: bool,                              // ppp_is_shortener_enabled()
    analytics: string,                                   // $ppp_share_settings['analytics']
    shortener: string,                                   // $ppp_share_settings['shortener']
    analyticsFilter: (string, string, nat, string) -> string,  // 'ppp_analytics-<provider>'
    trackingFilter: (string, nat, string) -> string,     // 'ppp_generate_link_tracking'
    shortenerFilter: (string, string) -> string,         // 'ppp_apply_shortener-<name>'
    shareLinkFilter: string -> string)                   // 'ppp_share_link'

  /** `ppp_generate_link_tracking($share_link, $post_id, $name)`. */
  function GenerateLinkTracking(cfg: LinkSettings, link: string, postId: nat, name: string): string {
    var tracked := if cfg.trackingEnabled then cfg.analyticsFilter(cfg.analytics, link, postId, name) else link;
    cfg.trackingFilter(tracked, postId, name)
  }

  /** `ppp_generate_link($post_id, $name, $scheduled)`. */
  function GenerateLink(cfg: LinkSettings, postId: nat, name: string, scheduled: bool): string {
    var link := cfg.permalink(postId);
    var tracked := if cfg.trackingEnabled then GenerateLinkTracking(cfg, link, postId, name) else link;
    var shortened := if cfg.shortenerEnabled && scheduled then cfg.shortenerFilter(cfg.shortener, tracked) else tracked;
    cfg.shareLinkFilter(shortened)
  }

  // ---------------------------------------------------------------- the pipeline as stages

  /** One transform a link can pass through. */
  datatype Stage = Analytics | TrackingHook | Shorten | ShareLinkHook

  predicate IsTracking(s: Stage) {
    s == Analytics || s == TrackingHook
  }

  /** The stages a link goes through, in order, for the given flags. */
  function Stages(cfg: LinkSettings, scheduled: bool): (r: seq<Stage>)
    ensures |r| > 0 && r[|r| - 1] == ShareLinkHook
    ensures ShareLinkHook !in r[..|r| - 1]
    ensures Analytics in r <==> cfg.trackingEnabled
    ensures TrackingHook in r <==> cfg.trackingEnabled
    ensures Shorten in r <==> cfg.shortenerEnabled && scheduled
    ensures forall i, j :: 0 <= i < |r| && 0 <= j < |r| && IsTracking(r[i]) && r[j] == Shorten ==> i < j
    ensures forall i, j :: 0 <= i < |r| && 0 <= j < |r| && r[i] == Analytics && r[j] == TrackingHook ==> i < j
    ensures forall i, j :: 0 <= i < j < |r| ==> r[i] != r[j]
  {
    (if cfg.trackingEnabled then [Analytics, TrackingHook] else [])
    + (if cfg.shortenerEnabled && scheduled then [Shorten] else [])
    + [ShareLinkHook]
  }

  function ApplyStage(cfg: LinkSettings, postId: nat, name: string, stage: Stage, link: string): string {
    match stage
    case Analytics => cfg.analyticsFilter(cfg.analytics, link, postId, name)
    case TrackingHook => cfg.trackingFilter(link, postId, name)
    case Shorten => cfg.shortenerFilter(cfg.shortener, link)
    case ShareLinkHook => cfg.shareLinkFilter(link)
  }

  /** Passing a link through the stages left to right. */
  function RunStages(cfg: LinkSettings, postId: nat, name: string, stages: seq<Stage>, link: string): string
    decreases |stages|
  {
    if |stages| == 0 then link else RunStages(cfg, postId, name, stages[1..], ApplyStage(cfg, postId, name, stages[0], link))
  }

  lemma {:induction false} RunStagesAppend(cfg: LinkSettings, postId: nat, name: string, a: seq<Stage>, b: seq<Stage>, link: string)
    ensures RunStages(cfg, postId, name, a + b, link) == RunStages(cfg, postId, name, b, RunStages(cfg, postId, name, a, link))
  {
    if |a| > 0 {
      assert (a + b)[1..] == a[1..] + b;
      RunStagesAppend(cfg, postId, name, a[1..], b, ApplyStage(cfg, postId, name, a[0], link));
    } else {
      assert a + b == b;
    }
  }

  /** The link is the permalink run through the stages: tracking first, then
      the shortener, then the final 'ppp_share_link' filter. */
  lemma GenerateLinkIsPipeline(cfg: LinkSettings, postId: nat, name: string, scheduled: bool)
    ensures GenerateLink(cfg, postId, name, scheduled) ==
            RunStages(cfg, postId, name, Stages(cfg, scheduled), cfg.permalink(postId))
  {
    var link := cfg.permalink(postId);
    var t := if cfg.trackingEnabled then [Analytics, TrackingHook] else [];
    var sh := if cfg.shortenerEnabled && scheduled then [Shorten] else [];
    RunStagesAppend(cfg, postId, name, t + sh, [ShareLinkHook], link);
    RunStagesAppend(cfg, postId, name, t, sh, link);
    if cfg.trackingEnabled {
      assert [Analytics, TrackingHook][1..] == [TrackingHook];
    }
  }

  /** With tracking and shortening off, the link is the filtered permalink. */
  lemma PlainLink(cfg: LinkSettings, postId: nat, name: string, scheduled: bool)
    requires !cfg.trackingEnabled && !cfg.shortenerEnabled
    ensures GenerateLink(cfg, postId, name, scheduled) == cfg.shareLinkFilter(cfg.permalink(postId))
  {
  }

  /** An unscheduled share is never shortened: its link does not depend on the
      shortener settings at all. */
  lemma UnscheduledNeverShortened(cfg: LinkSettings, postId: nat, name: string,
                                  enabled: bool, shortener: string, filter: (string, string) -> string)
    ensures GenerateLink(cfg, postId, name, false) ==
            GenerateLink(cfg.(shortenerEnabled := enabled, shortener := shortener, shortenerFilter := filter), postId, name, false)
  {
  }

  /** A scheduled share with both features on is shortened after it is tracked. */
  lemma TrackingBeforeShortener(cfg: LinkSettings, postId: nat, name: string)
    requires cfg.trackingEnabled && cfg.shortenerEnabled
    ensures GenerateLink(cfg, postId, name, true) ==
            cfg.shareLinkFilter(cfg.shortenerFilter(cfg.shortener,
              GenerateLinkTracking(cfg, cfg.permalink(postId), postId, name)))
  {
  }
}

=== FILE: media.dfy ===
/** `ppp_post_has_media`: whether a share carries the post's thumbnail. The
    attachment lookups are explicit functions. */
module Media {
  import opened Php

  datatype Media = NoMedia | MediaUrl(url: string)

  /** The path of WordPress's placeholder icon for an attachment without an image. */
  const DefaultImagePath := "wp-includes/images/media/default.png"

  /** The attachment lookups: `get_post_thumbnail_id` and the URL part of
      `wp_get_attachment_image_src($id, $size, true)` (None for `false`). */
  datatype ThumbSource = ThumbSource(thumbnailId: nat -> int, imageSrc: (int, string) -> Option<string>)

  /** PHP's `empty()` on a string: the empty string and "0". */
  predicate PhpEmpty(s: string) {
    s == "" || s == "0"
  }

  /** The image size registered for a network's share image. */
  function ImageSize(network: string): string {
    "ppp-" + network + "-share-image"
  }

  function ThumbUrl(thumbs: ThumbSource, postId: nat, network: string): Option<string> {
    thumbs.imageSrc(thumbs.thumbnailId(postId), ImageSize(network))
  }

  /** The `!strpos` test at face value: the placeholder path is absent, or
      its first occurrence is at position 0, which PHP reads as false. */
  ghost predicate PassesPlaceholderTest(url: string) {
    (forall k: nat :: !OccursAt(url, DefaultImagePath, k)) || OccursAt(url, DefaultImagePath, 0)
  }

  /** The media for a share: the thumbnail URL when media is wanted, the post
      and network are given, the URL is non-empty and `!strpos` does not see the
      placeholder path (which it misses when the path starts the URL). */
  function PostHasMedia(postId: nat, network: string, useMedia: bool, thumbs: ThumbSource): (r: Media)
    ensures r.MediaUrl? <==>
              && useMedia && postId != 0 && !PhpEmpty(network)
              && ThumbUrl(thumbs, postId, network).Some?
              && !PhpEmpty(ThumbUrl(thumbs, postId, network).value)
              && PassesPlaceholderTest(ThumbUrl(thumbs, postId, network).value)
    ensures r.MediaUrl? ==> ThumbUrl(thumbs, postId, network) == Some(r.url)
  {
    if !useMedia || postId == 0 || PhpEmpty(network) then NoMedia
    else
      var thumb := ThumbUrl(thumbs, postId, network);
      if thumb.Some? && !PhpEmpty(thumb.value) && (Find(thumb.value, DefaultImagePath) == None || Find(thumb.value, DefaultImagePath) == Some(0)) then
        MediaUrl(thumb.value)
      else
        assert thumb.Some? && !PhpEmpty(thumb.value) ==> !PassesPlaceholderTest(thumb.value);
        NoMedia
  }

  /** A real thumbnail, free of the placeholder path, is shared. */
  lemma ThumbnailShared(postId: nat, network: string, thumbs: ThumbSource, url: string)
    requires postId != 0 && !PhpEmpty(network) && !PhpEmpty(url)
    requires ThumbUrl(thumbs, postId, network) == Some(url)
    requires forall k: nat :: !OccursAt(url, DefaultImagePath, k)
    ensures PostHasMedia(postId, network, true, thumbs) == MediaUrl(url)
  {
  }

  /** The placeholder icon, at its usual place after the site URL, is never shared. */
  lemma PlaceholderNotShared(postId: nat, network: string, useMedia: bool, thumbs: ThumbSource, url: string, k: nat)
    requires ThumbUrl(thumbs, postId, network) == Some(url)
    requires 0 < k && OccursAt(url, DefaultImagePath, k) && !OccursAt(url, DefaultImagePath, 0)
    ensures PostHasMedia(postId, network, useMedia, thumbs) == NoMedia
  {
  }

  /** `!strpos` reads position 0 as "not found": a URL that starts with the
      placeholder path, such as the path itself or the path with a query
      string, is shared as media. */
  lemma PlaceholderAtStartShared(postId: nat, network: string, thumbs: ThumbSource, url: string)
    requires postId != 0 && !PhpEmpty(network)
    requires ThumbUrl(thumbs, postId, network) == Some(url)
    requires OccursAt(url, DefaultImagePath, 0)
    ensures PostHasMedia(postId, network, true, thumbs) == MediaUrl(url)
  {
  }

  /** No media is attached when it is not wanted, or the post id or network is empty. */
  lemma NoMediaWithoutRequest(postId: nat, network: string, useMedia: bool, thumbs: ThumbSource)
    requires !useMedia || postId == 0 || PhpEmpty(network)
    ensures PostHasMedia(postId, network, useMedia, thumbs) == NoMedia
  {
  }
}

=== FILE: php.dfy ===
/** The PHP built-ins the share functions lean on, written out with PHP's
    semantics: integer/string conversion, `(int)` casts of strings and floats,
    `explode`, `substr`, `strtolower` and `strpos`. */
module Php {

  /** A PHP value that may be absent (`null`, `false`, an unset array entry). */
  datatype Option<+T> = None | Some(value: T)

  predicate IsDigit(c: char) {
    '0' <= c <= '9'
  }

  predicate AllDigits(s: string) {
    forall i :: 0 <= i < |s| ==> IsDigit(s[i])
  }

  function DigitValue(c: char): (d: nat)
    requires IsDigit(c)
    ensures d < 10
  {
    (c as int) - ('0' as int)
  }

  function DigitChar(d: nat): (c: char)
    requires d < 10
    ensures IsDigit(c) && DigitValue(c) == d
  {
    (('0' as int) + d) as char
  }

  /** PHP's rendering of a non-negative integer in decimal. */
  function NatToString(n: nat): (s: string)
    ensures |s| > 0 && AllDigits(s)
    ensures s[0] == '0' <==> n == 0
    ensures s[|s| - 1] == DigitChar(n % 10)
  {
    if n < 10 then [DigitChar(n)] else NatToString(n / 10) + [DigitChar(n % 10)]
  }

  /** The value of a string of decimal digits (leading zeros allowed). */
  function DigitsValue(s: string): nat
    requires AllDigits(s)
  {
    if |s| == 0 then 0 else DigitsValue(s[..|s| - 1]) * 10 + DigitValue(s[|s| - 1])
  }

  lemma {:induction false} DigitsValueOfNatToString(n: nat)
    ensures DigitsValue(NatToString(n)) == n
  {
    if n >= 10 {
      var s := NatToString(n / 10);
      DigitsValueOfNatToString(n / 10);
      assert (s + [DigitChar(n % 10)])[..|s|] == s;
    }
  }

  lemma NatToStringInjective(a: nat, b: nat)
    ensures NatToString(a) == NatToString(b) <==> a == b
  {
    if NatToString(a) == NatToString(b) {
      DigitsValueOfNatToString(a);
      DigitsValueOfNatToString(b);
    }
  }

  /** A leading zero does not change a digit string's value. */
  lemma {:induction false} DigitsValueLeadingZero(s: string)
    requires AllDigits(s)
    ensures AllDigits("0" + s) && DigitsValue("0" + s) == DigitsValue(s)
  {
    if |s| > 0 {
      var t := s[..|s| - 1];
      DigitsValueLeadingZero(t);
      assert ("0" + s)[..|s|] == "0" + t;
    }
  }

  /** The whitespace PHP skips before a numeric string: space, \t, \n, \r, \v, \f. */
  predicate IsSpace(c: char) {
    c == ' ' || c == '\t' || c == '\n' || c == '\r' || c as int == 11 || c as int == 12
  }

  function SkipSpace(s: string): (r: string)
    ensures |r| <= |s| && r == s[|s| - |r|..]
    ensures |r| == 0 || !IsSpace(r[0])
  {
    if |s| > 0 && IsSpace(s[0]) then SkipSpace(s[1..]) else s
  }

  /** The longest prefix of `s` made of decimal digits. */
  function LeadingDigits(s: string): (r: string)
    ensures AllDigits(r) && r <= s
    ensures |r| == |s| || !IsDigit(s[|r|])
  {
    if |s| == 0 || !IsDigit(s[0]) then "" else [s[0]] + LeadingDigits(s[1..])
  }

  /** PHP's `(int)` cast of a string: optional leading whitespace, an optional
      sign, then the longest run of decimal digits; no digits gives 0. */
  function IntCast(s: string): int
  {
    var t := SkipSpace(s);
    if |t| > 0 && (t[0] == '-' || t[0] == '+') then
      var v: int := DigitsValue(LeadingDigits(t[1..]));
      if t[0] == '-' then -v else v
    else
      DigitsValue(LeadingDigits(t))
  }

  lemma {:induction false} LeadingDigitsOfDigits(s: string)
    requires AllDigits(s)
    ensures LeadingDigits(s) == s
  {
    if |s| > 0 {
      LeadingDigitsOfDigits(s[1..]);
      assert [s[0]] + s[1..] == s;
    }
  }

  lemma IntCastDigits(s: string)
    requires |s| > 0 && AllDigits(s)
    ensures IntCast(s) == DigitsValue(s)
  {
    assert !IsSpace(s[0]) && s[0] != '-' && s[0] != '+';
    assert SkipSpace(s) == s;
    LeadingDigitsOfDigits(s);
  }

  /** Casting PHP's decimal rendering of a number back gives the number. */
  lemma IntCastOfNatToString(n: nat)
    ensures IntCast(NatToString(n)) == n
  {
    IntCastDigits(NatToString(n));
    DigitsValueOfNatToString(n);
  }

  /** PHP's `(int)` cast of a float: truncation toward zero. */
  function TruncateToInt(x: real): (r: int)
    ensures 0.0 <= x ==> r as real <= x < r as real + 1.0
    ensures x < 0.0 ==> r as real - 1.0 < x <= r as real
  {
    if x >= 0.0 then x.Floor else -((-x).Floor)
  }

  /** `explode($sep, $s)` for a one-character separator. */
  function Explode(sep: char, s: string): (parts: seq<string>)
    ensures |parts| > 0
    ensures forall i :: 0 <= i < |parts| ==> sep !in parts[i]
  {
    if |s| == 0 then [""]
    else
      var rest := Explode(sep, s[1..]);
      if s[0] == sep then [""] + rest else [[s[0]] + rest[0]] + rest[1..]
  }

  /** `implode($sep, $parts)`, the inverse of `Explode`. */
  function Implode(sep: char, parts: seq<string>): string
    requires |parts| > 0
  {
    if |parts| == 1 then parts[0] else parts[0] + [sep] + Implode(sep, parts[1..])
  }

  lemma {:induction false} ImplodeExplode(sep: char, s: string)
    ensures Implode(sep, Explode(sep, s)) == s
  {
    if |s| > 0 {
      ImplodeExplode(sep, s[1..]);
      var rest := Explode(sep, s[1..]);
      if s[0] == sep {
        assert ([""] + rest)[1..] == rest;
      } else {
        var parts := [[s[0]] + rest[0]] + rest[1..];
        assert parts[1..] == rest[1..];
        if |rest| > 1 {
          assert Implode(sep, rest) == rest[0] + [sep] + Implode(sep, rest[1..]);
        }
      }
    }
  }

  /** Exploding a separator-free prefix glues it onto the first part. */
  lemma {:induction false} ExplodePrefix(sep: char, p: string, r: string)
    requires sep !in p
    ensures Explode(sep, p + r) == [p + Explode(sep, r)[0]] + Explode(sep, r)[1..]
  {
    if |p| > 0 {
      assert (p + r)[1..] == p[1..] + r;
      ExplodePrefix(sep, p[1..], r);
      assert [p[0]] + (p[1..] + Explode(sep, r)[0]) == p + Explode(sep, r)[0];
    } else {
      var e := Explode(sep, r);
      assert p + r == r;
      assert p + e[0] == e[0];
      assert [e[0]] + e[1..] == e;
    }
  }

  lemma {:induction false} ExplodeImplode(sep: char, parts: seq<string>)
    requires |parts| > 0
    requires forall i :: 0 <= i < |parts| ==> sep !in parts[i]
    ensures Explode(sep, Implode(sep, parts)) == parts
  {
    if |parts| == 1 {
      ExplodePrefix(sep, parts[0], "");
      assert parts[0] + "" == parts[0];
    } else {
      var tail := Implode(sep, parts[1..]);
      ExplodeImplode(sep, parts[1..]);
      assert ([sep] + tail)[1..] == tail;
      assert Explode(sep, [sep] + tail) == [""] + parts[1..];
      assert parts[0] + [sep] + tail == parts[0] + ([sep] + tail);
      ExplodePrefix(sep, parts[0], [sep] + tail);
      assert parts[0] + "" == parts[0];
    }
  }

  /** `substr($s, 0, $n)` for a non-negative length. */
  function Prefix(s: string, n: nat): (r: string)
    ensures r <= s && |r| == (if n < |s| then n else |s|)
  {
    if n < |s| then s[..n] else s
  }

  /** `substr($s, -$n)` for a positive `n`: the last `n` characters, or all
      of a shorter string. (PHP's `substr($s, -0)` is the whole string, so a
      zero `n` is not this operation.) */
  function Suffix(s: string, n: nat): (r: string)
    requires n > 0
    ensures |r| == (if n < |s| then n else |s|) && r == s[|s| - |r|..]
  {
    if n < |s| then s[|s| - n..] else s
  }

  function ToLowerChar(c: char): char {
    if 'A' <= c <= 'Z' then ((c as int) + 32) as char else c
  }

  /** `strtolower`, which since PHP 8.2 folds ASCII letters only. */
  function ToLower(s: string): (r: string)
    ensures |r| == |s|
    ensures forall i :: 0 <= i < |s| ==> r[i] == ToLowerChar(s[i])
  {
    if |s| == 0 then "" else [ToLowerChar(s[0])] + ToLower(s[1..])
  }

  predicate OccursAt(hay: string, needle: string, i: nat) {
    i + |needle| <= |hay| && hay[i..i + |needle|] == needle
  }

  /** `strpos($hay, $needle, $from)`: the first position at or after `from`
      where `needle` occurs, or None (PHP's `false`). */
  function FindFrom(hay: string, needle: string, from: nat): (r: Option<nat>)
    requires from <= |hay|
    ensures r.Some? ==> from <= r.value && OccursAt(hay, needle, r.value)
    ensures r.Some? ==> forall j: nat :: from <= j < r.value ==> !OccursAt(hay, needle, j)
    ensures r.None? ==> forall j: nat :: from <= j ==> !OccursAt(hay, needle, j)
    decreases |hay| - from
  {
    if OccursAt(hay, needle, from) then Some(from)
    else if from == |hay| then None
    else FindFrom(hay, needle, from + 1)
  }

  function Find(hay: string, needle: string): (r: Option<nat>)
  {
    FindFrom(hay, needle, 0)
  }
}

=== FILE: planner.dfy ===
/** The timestamp planner: `ppp_get_timestamps` with its helpers
    `ppp_is_day_enabled`, `ppp_get_default_times` and `ppp_get_day_default_time`.
    The site options, the post's override meta, the clock and the calendar
    are explicit inputs. */
module Planner {
  import opened Php
  import opened Settings

  /** What the planner reads from the site besides the plugin options. */
  datatype Site = Site(
    gmtOffset: real,                   // get_option('gmt_offset'), in hours
    now: int,                          // time()
    midnight: (int, int, int) -> int,  // epoch second of 00:00 on (month, day, year)
    daysCount: int,                    // ppp_share_days_count()
    dayFilter: (bool, nat) -> bool)    // the 'ppp_is_day_enabled' filter

  datatype Date = Date(month: int, day: int, year: int)

  /** One entry of a time source: an array key such as 'day3' and its 'H:MMam/pm' time. */
  type Slot = (string, string)

  const DefaultTime := "8:00am"

  function DayKey(day: nat): string {
    "day" + NatToString(day)
  }

  // ---------------------------------------------------------------- defaults

  /** `ppp_is_day_enabled`: the day's 'days' entry is exactly 'on', then filtered. */
  predicate IsDayEnabled(opts: Options, site: Site, day: nat) {
    var key := DayKey(day);
    site.dayFilter(key in opts.days && opts.days[key] == "on", day)
  }

  /** `ppp_get_day_default_time`: the configured time, or 8:00am. */
  function DayDefaultTime(opts: Options, day: nat): string {
    var key := DayKey(day);
    if key in opts.times then opts.times[key] else DefaultTime
  }

  /** The loop of `ppp_get_default_times` run for days 1..n, in day order. */
  function DefaultTimesUpTo(opts: Options, site: Site, n: nat): (r: seq<Slot>)
    ensures |r| <= n
    ensures forall s :: s in r ==>
              exists d :: 1 <= d <= n && IsDayEnabled(opts, site, d) && s == (DayKey(d), DayDefaultTime(opts, d))
    ensures forall d :: 1 <= d <= n && IsDayEnabled(opts, site, d) ==> (DayKey(d), DayDefaultTime(opts, d)) in r
  {
    if n == 0 then []
    else
      var earlier := DefaultTimesUpTo(opts, site, n - 1);
      if IsDayEnabled(opts, site, n) then earlier + [(DayKey(n), DayDefaultTime(opts, n))] else earlier
  }

  /** `ppp_get_default_times`: one slot per enabled day among the configured days. */
  function DefaultTimes(opts: Options, site: Site): seq<Slot> {
    if site.daysCount <= 0 then [] else DefaultTimesUpTo(opts, site, site.daysCount)
  }

  /** With the 'ppp_is_day_enabled' filter left unhooked, the default time
      source holds exactly the days 1..count whose 'days' entry is 'on', each
      with its configured time or 8:00am. */
  lemma DefaultTimesFromOptions(opts: Options, site: Site)
    requires forall b, d :: site.dayFilter(b, d) == b
    ensures forall k, t :: (k, t) in DefaultTimes(opts, site) <==>
              exists d :: 1 <= d <= site.daysCount && k == DayKey(d) && k in opts.days && opts.days[k] == "on"
                          && t == (if k in opts.times then opts.times[k] else "8:00am")
  {
    forall k, t
      ensures (k, t) in DefaultTimes(opts, site) <==>
              exists d :: 1 <= d <= site.daysCount && k == DayKey(d) && k in opts.days && opts.days[k] == "on"
                          && t == (if k in opts.times then opts.times[k] else "8:00am")
    {
      if exists d :: 1 <= d <= site.daysCount && k == DayKey(d) && k in opts.days && opts.days[k] == "on"
                     && t == (if k in opts.times then opts.times[k] else "8:00am") {
        var d :| 1 <= d <= site.daysCount && k == DayKey(d) && k in opts.days && opts.days[k] == "on"
                 && t == (if k in opts.times then opts.times[k] else "8:00am");
        assert IsDayEnabled(opts, site, d);
      }
    }
  }

  // ---------------------------------------------------------------- overrides

  /** One entry of the '_ppp_post_override_data' post meta. */
  datatype OverrideEntry = OverrideEntry(enabled: Option<string>, time: string)

  /** The post meta the planner reads: '_ppp_post_override' (truthy or not) and its data. */
  datatype PostMeta = PostMeta(overrideOn: bool, overrideData: seq<(string, OverrideEntry)>)

  /** An override day is shared only when its 'enabled' value is exactly '1';
      a missing value is normalised to false and so never is. */
  predicate EntryEnabled(e: OverrideEntry) {
    e.enabled == Some("1")
  }

  /** The override times that survive the `continue` of the planner loop, in order. */
  function EnabledOverrides(data: seq<(string, OverrideEntry)>): (r: seq<Slot>)
    ensures |r| <= |data|
    ensures forall s :: s in r ==>
              exists i :: 0 <= i < |data| && EntryEnabled(data[i].1) && s == (data[i].0, data[i].1.time)
    ensures forall i :: 0 <= i < |data| && EntryEnabled(data[i].1) ==> (data[i].0, data[i].1.time) in r
  {
    if |data| == 0 then []
    else
      var rest := EnabledOverrides(data[1..]);
      if EntryEnabled(data[0].1) then [(data[0].0, data[0].1.time)] + rest else rest
  }

  /** The time source: the post's override when it has one, else the defaults. */
  function TimeSource(opts: Options, site: Site, meta: PostMeta): seq<Slot> {
    if meta.overrideOn then EnabledOverrides(meta.overrideData) else DefaultTimes(opts, site)
  }

  // ---------------------------------------------------------------- time strings

  datatype ClockTime = ClockTime(hours: int, minutes: int, meridiem: string)

  /** Splitting 'H:MMam' as the planner does: `(int)` of the part before the
      first ':', `(int)` of the first two characters after it, and the last two
      characters after it lower-cased. */
  function ParseShareTime(data: string): ClockTime {
    var parts := Explode(':', data);
    var rest := if |parts| > 1 then parts[1] else "";
    ClockTime(IntCast(parts[0]), IntCast(Prefix(rest, 2)), ToLower(Suffix(rest, 2)))
  }

  /** The planner's 12-hour to 24-hour adjustment. */
  function To24Hour(hours: int, meridiem: string): int {
    var h := if meridiem == "pm" && hours != 12 then hours + 12 else hours;
    if meridiem == "am" && h == 12 then 0 else h
  }

  /** The clock-face reading of a 24-hour hour. */
  function To12Hour(h24: int): (r: (int, string))
    requires 0 <= h24 < 24
    ensures 1 <= r.0 <= 12 && (r.1 == "am" || r.1 == "pm")
    ensures r.1 == "am" <==> h24 < 12
  {
    if h24 == 0 then (12, "am")
    else if h24 < 12 then (h24, "am")
    else if h24 == 12 then (12, "pm")
    else (h24 - 12, "pm")
  }

  /** For clock hours 1..12: 12am is 0, 12pm is 12, other pm hours gain 12,
      other am hours are unchanged; the result is an hour of the day, and
      reading it back on a 12-hour clock gives the input. */
  lemma HourConversion(hours: int, meridiem: string)
    requires 1 <= hours <= 12 && (meridiem == "am" || meridiem == "pm")
    ensures meridiem == "am" ==> To24Hour(hours, meridiem) == (if hours == 12 then 0 else hours)
    ensures meridiem == "pm" ==> To24Hour(hours, meridiem) == (if hours == 12 then 12 else hours + 12)
    ensures 0 <= To24Hour(hours, meridiem) < 24
    ensures To12Hour(To24Hour(hours, meridiem)) == (hours, meridiem)
  {
  }

  /** Every hour of the day is reached from exactly its clock-face reading. */
  lemma HourConversionOnto(h24: int)
    requires 0 <= h24 < 24
    ensures To24Hour(To12Hour(h24).0, To12Hour(h24).1) == h24
  {
  }

  function TwoDigits(m: nat): string
    requires m < 100
  {
    if m < 10 then "0" + NatToString(m) else NatToString(m)
  }

  /** The 'H:MMam/pm' format that `ppp_get_day_default_time` documents for a share time. */
  function FormatShareTime(hours: nat, minutes: nat, meridiem: string): string
    requires minutes < 100
  {
    NatToString(hours) + ":" + TwoDigits(minutes) + meridiem
  }

  lemma TwoDigitsValue(m: nat)
    requires m < 100
    ensures |TwoDigits(m)| == 2 && AllDigits(TwoDigits(m))
    ensures IntCast(TwoDigits(m)) == m
  {
    if m < 10 {
      DigitsValueLeadingZero(NatToString(m));
      IntCastDigits("0" + NatToString(m));
      DigitsValueOfNatToString(m);
    } else {
      IntCastOfNatToString(m);
    }
  }

  lemma DigitsHaveNoSeparator(s: string, sep: char)
    requires AllDigits(s) && !IsDigit(sep)
    ensures sep !in s
  {
  }

  /** A formatted time splits on ':' into the hour digits and the rest. */
  lemma ExplodeFormatted(hours: nat, minutes: nat, meridiem: string)
    requires minutes < 100 && ':' !in meridiem
    ensures Explode(':', FormatShareTime(hours, minutes, meridiem)) == [NatToString(hours), TwoDigits(minutes) + meridiem]
  {
    var a := NatToString(hours);
    var b := TwoDigits(minutes) + meridiem;
    assert ':' !in a && ':' !in b by {
      TwoDigitsValue(minutes);
      DigitsHaveNoSeparator(a, ':');
      DigitsHaveNoSeparator(TwoDigits(minutes), ':');
    }
    ImplodePair(':', a, b);
    assert FormatShareTime(hours, minutes, meridiem) == Implode(':', [a, b]);
    ExplodeImplode(':', [a, b]);
  }

  lemma ImplodePair(sep: char, a: string, b: string)
    ensures Implode(sep, [a, b]) == a + [sep] + b
  {
    assert [a, b][1..] == [b];
  }

  /** Parsing a formatted time gives back its hour and minute, and its
      two-letter suffix lower-cased (so '9:00PM' reads as 9, 0, 'pm'). */
  lemma ParseFormatted(hours: nat, minutes: nat, meridiem: string)
    requires minutes < 100 && |meridiem| == 2 && ':' !in meridiem
    ensures ParseShareTime(FormatShareTime(hours, minutes, meridiem)) == ClockTime(hours, minutes, ToLower(meridiem))
  {
    var mm := TwoDigits(minutes);
    TwoDigitsValue(minutes);
    var b := mm + meridiem;
    ExplodeFormatted(hours, minutes, meridiem);
    assert Prefix(b, 2) == mm;
    assert Suffix(b, 2) == meridiem;
    IntCastOfNatToString(hours);
  }

  lemma HourOfFormatted(hours: nat, meridiem: string)
    requires meridiem == "am" || meridiem == "pm"
    ensures HourOf(FormatShareTime(hours, 0, meridiem)) == To24Hour(hours, meridiem)
  {
    LowerMeridiem(meridiem);
    HourOfLowerFormatted(hours, meridiem);
  }

  lemma LowerMeridiem(meridiem: string)
    requires meridiem == "am" || meridiem == "pm"
    ensures |meridiem| == 2 && ':' !in meridiem && ToLower(meridiem) == meridiem
  {
    assert ToLowerChar(meridiem[0]) == meridiem[0] && ToLowerChar(meridiem[1]) == meridiem[1];
  }

  lemma HourOfLowerFormatted(hours: nat, meridiem: string)
    requires |meridiem| == 2 && ':' !in meridiem && ToLower(meridiem) == meridiem
    ensures HourOf(FormatShareTime(hours, 0, meridiem)) == To24Hour(hours, meridiem)
  {
    ParseFormatted(hours, 0, meridiem);
  }

  /** The 24-hour hour the planner derives from a time string, before the offset. */
  function HourOf(data: string): int {
    var t := ParseShareTime(data);
    To24Hour(t.hours, t.meridiem)
  }

  // ---------------------------------------------------------------- instants and names

  /** `substr($key, -1)`: only the last character of the key names the day offset. */
  function DayPart(key: string): string {
    Suffix(key, 1)
  }

  /** The numeric value of the day part in `$day + $days_ahead`. */
  function DayOffset(dayPart: string): nat {
    if |dayPart| == 1 && IsDigit(dayPart[0]) then DigitValue(dayPart[0]) else 0
  }

  /** `(int) -(gmt_offset)`: the negated offset truncated toward zero. */
  function OffsetHours(gmtOffset: real): int {
    TruncateToInt(-gmtOffset)
  }

  /** 'sharedate_<day part>_<post id>', the name a scheduled share is known by. */
  function ShareName(dayPart: string, postId: nat): string {
    "sharedate_" + dayPart + "_" + NatToString(postId)
  }

  /** The instant `mktime($hours, $minutes, 0, $month, $day + $days_ahead, $year)`,
      over an abstract midnight and a linear day. */
  function SlotInstant(site: Site, date: Date, slot: Slot): int {
    var t := ParseShareTime(slot.1);
    var hours := To24Hour(t.hours, t.meridiem) + OffsetHours(site.gmtOffset);
    site.midnight(date.month, date.day, date.year) + (DayOffset(DayPart(slot.0)) * 24 + hours) * 3600 + t.minutes * 60
  }

  function SlotName(slot: Slot, postId: nat): string {
    ShareName(DayPart(slot.0), postId)
  }

  /** A slot's instant and name, computed before the future-only test. */
  datatype Planned = Planned(instant: int, name: string)

  function Candidate(site: Site, date: Date, postId: nat, slot: Slot): Planned {
    Planned(SlotInstant(site, date, slot), SlotName(slot, postId))
  }

  function Candidates(site: Site, date: Date, postId: nat, slots: seq<Slot>): (r: seq<Planned>)
    ensures |r| == |slots|
    ensures forall i :: 0 <= i < |slots| ==> r[i] == Candidate(site, date, postId, slots[i])
  {
    seq(|slots|, i requires 0 <= i < |slots| => Candidate(site, date, postId, slots[i]))
  }

  /** The planner loop: candidates in order, each future instant keyed to its
      name; a later candidate at the same instant overwrites an earlier one. */
  function Plan(now: int, cands: seq<Planned>): (r: map<int, string>)
    ensures forall t :: t in r ==> t > now
  {
    if |cands| == 0 then map[]
    else
      var earlier := Plan(now, cands[..|cands| - 1]);
      var last := cands[|cands| - 1];
      if last.instant > now then earlier[last.instant := last.name] else earlier
  }

  /** `ppp_get_timestamps`: every planned instant lies strictly after now. */
  function GetTimestamps(opts: Options, site: Site, meta: PostMeta, date: Date, postId: nat): (r: map<int, string>)
    ensures forall t :: t in r ==> t > site.now
  {
    Plan(site.now, Candidates(site, date, postId, TimeSource(opts, site, meta)))
  }

  // ---------------------------------------------------------------- properties of the plan

  /** Every planned instant comes from a candidate at that instant, carries
      that candidate's name, and no later candidate has the same instant (the
      last one wins). */
  lemma {:induction false} PlanSound(now: int, cands: seq<Planned>)
    ensures forall t :: t in Plan(now, cands) ==>
              exists i :: 0 <= i < |cands| && cands[i].instant == t && Plan(now, cands)[t] == cands[i].name
                          && forall j :: i < j < |cands| ==> cands[j].instant != t
  {
    if |cands| > 0 {
      var init := cands[..|cands| - 1];
      PlanSound(now, init);
      var r := Plan(now, cands);
      var last := cands[|cands| - 1];
      forall t | t in r
        ensures exists i :: 0 <= i < |cands| && cands[i].instant == t && r[t] == cands[i].name
                            && forall j :: i < j < |cands| ==> cands[j].instant != t
      {
        if last.instant > now && t == last.instant {
          assert cands[|cands| - 1].instant == t;
        } else {
          assert t in Plan(now, init) && r[t] == Plan(now, init)[t];
          var i :| 0 <= i < |init| && init[i].instant == t && Plan(now, init)[t] == init[i].name
                   && forall j :: i < j < |init| ==> init[j].instant != t;
          assert init[i] == cands[i];
          forall j | i < j < |cands|
            ensures cands[j].instant != t
          {
            if j < |init| {
              assert init[j] == cands[j];
            }
          }
        }
      }
    }
  }

  /** Every candidate whose instant is in the future is planned. */
  lemma {:induction false} PlanComplete(now: int, cands: seq<Planned>)
    ensures forall i :: 0 <= i < |cands| && cands[i].instant > now ==> cands[i].instant in Plan(now, cands)
  {
    if |cands| > 0 {
      var init := cands[..|cands| - 1];
      PlanComplete(now, init);
      forall i | 0 <= i < |cands| && cands[i].instant > now
        ensures cands[i].instant in Plan(now, cands)
      {
        if i < |init| {
          assert init[i] == cands[i];
        }
      }
    }
  }

  /** The planned instants are exactly the future instants of the candidates. */
  lemma PlanKeys(now: int, cands: seq<Planned>)
    ensures Plan(now, cands).Keys == set i | 0 <= i < |cands| && cands[i].instant > now :: cands[i].instant
  {
    PlanSound(now, cands);
    PlanComplete(now, cands);
  }

  /** Two candidates at the same future instant collide: only the later one's name is kept. */
  lemma SameInstantKeepsLater(now: int, first: Planned, second: Planned)
    requires first.instant == second.instant > now
    ensures Plan(now, [first, second]) == map[second.instant := second.name]
  {
    assert [first, second][..1] == [first];
    assert [first][..0] == [];
    assert Plan(now, [first]) == map[first.instant := first.name];
    assert map[first.instant := first.name][second.instant := second.name] == map[second.instant := second.name];
  }

  /** With an override, each planned share is an enabled override day at its
      instant, named after the last character of that day's key. */
  lemma OverrideSharesOnlyEnabledDays(opts: Options, site: Site, meta: PostMeta, date: Date, postId: nat)
    requires meta.overrideOn
    ensures var r := GetTimestamps(opts, site, meta, date, postId);
            forall t :: t in r ==>
              exists i :: 0 <= i < |meta.overrideData| && EntryEnabled(meta.overrideData[i].1)
                          && t == SlotInstant(site, date, (meta.overrideData[i].0, meta.overrideData[i].1.time))
                          && r[t] == ShareName(DayPart(meta.overrideData[i].0), postId)
  {
    var slots := EnabledOverrides(meta.overrideData);
    var cands := Candidates(site, date, postId, slots);
    PlanSound(site.now, cands);
    var r := GetTimestamps(opts, site, meta, date, postId);
    forall t | t in r
      ensures exists i :: 0 <= i < |meta.overrideData| && EntryEnabled(meta.overrideData[i].1)
                          && t == SlotInstant(site, date, (meta.overrideData[i].0, meta.overrideData[i].1.time))
                          && r[t] == ShareName(DayPart(meta.overrideData[i].0), postId)
    {
      var k :| 0 <= k < |cands| && cands[k].instant == t && r[t] == cands[k].name;
      assert cands[k] == Candidate(site, date, postId, slots[k]);
      assert slots[k] in slots;
    }
  }

  /** With an override, every enabled override day whose instant is in the future is planned. */
  lemma OverrideEnabledDaysPlanned(opts: Options, site: Site, meta: PostMeta, date: Date, postId: nat)
    requires meta.overrideOn
    ensures forall i :: 0 <= i < |meta.overrideData| && EntryEnabled(meta.overrideData[i].1)
                        && SlotInstant(site, date, (meta.overrideData[i].0, meta.overrideData[i].1.time)) > site.now ==>
              SlotInstant(site, date, (meta.overrideData[i].0, meta.overrideData[i].1.time))
                in GetTimestamps(opts, site, meta, date, postId)
  {
    forall i | 0 <= i < |meta.overrideData| && EntryEnabled(meta.overrideData[i].1)
               && SlotInstant(site, date, (meta.overrideData[i].0, meta.overrideData[i].1.time)) > site.now
      ensures SlotInstant(site, date, (meta.overrideData[i].0, meta.overrideData[i].1.time))
                in GetTimestamps(opts, site, meta, date, postId)
    {
      OverrideDayPlanned(opts, site, meta, date, postId, meta.overrideData[i].0, meta.overrideData[i].1.time);
    }
  }

  lemma OverrideDayPlanned(opts: Options, site: Site, meta: PostMeta, date: Date, postId: nat, key: string, time: string)
    requires meta.overrideOn && (key, time) in EnabledOverrides(meta.overrideData)
    requires SlotInstant(site, date, (key, time)) > site.now
    ensures SlotInstant(site, date, (key, time)) in GetTimestamps(opts, site, meta, date, postId)
  {
    var slots := EnabledOverrides(meta.overrideData);
    var cands := Candidates(site, date, postId, slots);
    var k :| 0 <= k < |slots| && slots[k] == (key, time);
    assert cands[k].instant == SlotInstant(site, date, (key, time));
    PlanComplete(site.now, cands);
  }

  /** Without an override, each planned share is an enabled default day at
      its instant, named after the last digit of that day's number. */
  lemma DefaultSharesOnlyEnabledDays(opts: Options, site: Site, meta: PostMeta, date: Date, postId: nat)
    requires !meta.overrideOn
    ensures var r := GetTimestamps(opts, site, meta, date, postId);
            forall t :: t in r ==>
              exists d :: 1 <= d <= site.daysCount && IsDayEnabled(opts, site, d)
                          && t == SlotInstant(site, date, (DayKey(d), DayDefaultTime(opts, d)))
                          && r[t] == ShareName([DigitChar(d % 10)], postId)
  {
    var slots := DefaultTimes(opts, site);
    var cands := Candidates(site, date, postId, slots);
    PlanSound(site.now, cands);
    var r := GetTimestamps(opts, site, meta, date, postId);
    forall t | t in r
      ensures exists d :: 1 <= d <= site.daysCount && IsDayEnabled(opts, site, d)
                          && t == SlotInstant(site, date, (DayKey(d), DayDefaultTime(opts, d)))
                          && r[t] == ShareName([DigitChar(d % 10)], postId)
    {
      var k :| 0 <= k < |cands| && cands[k].instant == t && r[t] == cands[k].name;
      assert cands[k] == Candidate(site, date, postId, slots[k]);
      assert slots[k] in slots;
      var d :| 1 <= d <= site.daysCount && IsDayEnabled(opts, site, d) && slots[k] == (DayKey(d), DayDefaultTime(opts, d));
      DayPartOfDayKey(d);
    }
  }

  /** Without an override, every enabled default day whose instant is in the
      future is planned. */
  lemma DefaultEnabledDaysPlanned(opts: Options, site: Site, meta: PostMeta, date: Date, postId: nat, d: nat)
    requires !meta.overrideOn
    requires 1 <= d <= site.daysCount && IsDayEnabled(opts, site, d)
    requires SlotInstant(site, date, (DayKey(d), DayDefaultTime(opts, d))) > site.now
    ensures SlotInstant(site, date, (DayKey(d), DayDefaultTime(opts, d))) in GetTimestamps(opts, site, meta, date, postId)
  {
    var slots := DefaultTimes(opts, site);
    var cands := Candidates(site, date, postId, slots);
    var s := (DayKey(d), DayDefaultTime(opts, d));
    assert s in slots;
    var k :| 0 <= k < |slots| && slots[k] == s;
    assert cands[k].instant == SlotInstant(site, date, s);
    PlanComplete(site.now, cands);
  }

  /** Only the last digit of the day number reaches the name and the offset:
      'day10' shares at day offset 0 under 'sharedate_0_<id>'. */
  lemma DayPartOfDayKey(d: nat)
    ensures DayPart(DayKey(d)) == [DigitChar(d % 10)]
    ensures DayOffset(DayPart(DayKey(d))) == d % 10
  {
    var s := NatToString(d);
    assert DayKey(d)[|DayKey(d)| - 1] == s[|s| - 1];
  }

  /** The GMT correction drops the fraction of a half-hour offset: a site at
      +5.5 hours is corrected by -5 hours, one at -3.5 hours by +3. */
  lemma OffsetTruncatesFraction()
    ensures OffsetHours(5.5) == -5 && OffsetHours(-3.5) == 3 && OffsetHours(0.0) == 0
  {
  }

  /** Different posts get different share names for the same day, so their
      schedules and dispatch guards never collide. */
  lemma ShareNamesDistinct(dayPart: string, a: nat, b: nat)
    requires a != b
    ensures ShareName(dayPart, a) != ShareName(dayPart, b)
  {
    var p := "sharedate_" + dayPart + "_";
    if ShareName(dayPart, a) == ShareName(dayPart, b) {
      assert ShareName(dayPart, a)[|p|..] == NatToString(a);
      assert ShareName(dayPart, b)[|p|..] == NatToString(b);
      NatToStringInjective(a, b);
    }
  }

  /** The name splits back on '_' into its prefix, the day part and the post id,
      provided the day part holds no '_'. */
  lemma ShareNameRoundTrip(dayPart: string, postId: nat)
    requires '_' !in dayPart
    ensures Explode('_', ShareName(dayPart, postId)) == ["sharedate", dayPart, NatToString(postId)]
    ensures IntCast(Explode('_', ShareName(dayPart, postId))[2]) == postId
  {
    var id := NatToString(postId);
    assert '_' !in id by {
      assert forall i :: 0 <= i < |id| ==> IsDigit(id[i]);
    }
    var parts := ["sharedate", dayPart, id];
    assert Implode('_', parts[2..]) == id;
    assert Implode('_', parts[1..]) == dayPart + "_" + id;
    assert Implode('_', parts) == ShareName(dayPart, postId);
    ExplodeImplode('_', parts);
    IntCastOfNatToString(postId);
  }
}

=== FILE: planner_examples.dfy ===
/** Worked examples of the planner on concrete time strings and override data. */
module PlannerExamples {
  import opened Php
  import opened Settings
  import opened Planner

  /** 12:00am is hour 0, 12:00pm hour 12, 1:00pm hour 13, 11:00pm hour 23 and 1:00am hour 1. */
  lemma HourExamples()
    ensures HourOf("12:00am") == 0 && HourOf("12:00pm") == 12
    ensures HourOf("1:00pm") == 13 && HourOf("11:00pm") == 23 && HourOf("1:00am") == 1
  {
    HourOfTwelveAm();
    HourOfTwelvePm();
    HourOfOnePm();
    HourOfElevenPm();
    HourOfOneAm();
  }

  lemma HourOfTwelveAm()
    ensures HourOf("12:00am") == 0
  {
    assert FormatShareTime(12, 0, "am") == "12:00am" by {
      assert NatToString(12) == "12" && NatToString(0) == "0";
    }
    HourOfFormatted(12, "am");
  }

  lemma HourOfTwelvePm()
    ensures HourOf("12:00pm") == 12
  {
    assert FormatShareTime(12, 0, "pm") == "12:00pm" by {
      assert NatToString(12) == "12" && NatToString(0) == "0";
    }
    HourOfFormatted(12, "pm");
  }

  lemma HourOfOnePm()
    ensures HourOf("1:00pm") == 13
  {
    assert FormatShareTime(1, 0, "pm") == "1:00pm" by {
      assert NatToString(1) == "1" && NatToString(0) == "0";
    }
    HourOfFormatted(1, "pm");
  }

  lemma HourOfElevenPm()
    ensures HourOf("11:00pm") == 23
  {
    assert FormatShareTime(11, 0, "pm") == "11:00pm" by {
      assert NatToString(11) == "11" && NatToString(0) == "0";
    }
    HourOfFormatted(11, "pm");
  }

  lemma HourOfOneAm()
    ensures HourOf("1:00am") == 1
  {
    assert FormatShareTime(1, 0, "am") == "1:00am" by {
      assert NatToString(1) == "1" && NatToString(0) == "0";
    }
    HourOfFormatted(1, "am");
  }

  lemma ParseNineAm()
    ensures ParseShareTime("9:00am") == ClockTime(9, 0, "am")
  {
    assert NatToString(9) == "9" && NatToString(0) == "0";
    assert FormatShareTime(9, 0, "am") == "9:00am";
    ParseFormatted(9, 0, "am");
    assert ToLower("am") == "am";
  }

  /** The example post: override on, day 1 enabled at `time`, day 2 unchecked. */
  function ExampleMeta(time: string): PostMeta {
    PostMeta(true, [("day1", OverrideEntry(Some("1"), time)), ("day2", OverrideEntry(None, time))])
  }

  /** Day 1 at 9:00, corrected by the site's offset. */
  function ExampleInstant(site: Site, date: Date): int {
    site.midnight(date.month, date.day, date.year) + (24 + 9 + OffsetHours(site.gmtOffset)) * 3600
  }

  /** The example post's time source: only day 1 survives. */
  lemma ExampleTimeSource(opts: Options, site: Site, time: string)
    ensures TimeSource(opts, site, ExampleMeta(time)) == [("day1", time)]
  {
    var data := ExampleMeta(time).overrideData;
    assert data[1..][1..] == [];
    assert EnabledOverrides(data[1..]) == [];
    assert EnabledOverrides(data) == [("day1", time)];
  }

  /** The key 'day1' names day offset 1 and name part '1'. */
  lemma DayOneKey()
    ensures DayPart("day1") == "1" && DayOffset("1") == 1
  {
    assert "day1"[|"day1"| - 1..] == "1";
  }

  /** Day 1 at a time reading 9:00am: its instant and its name. */
  lemma ExampleCandidate(site: Site, date: Date, postId: nat, time: string)
    requires ParseShareTime(time) == ClockTime(9, 0, "am")
    ensures Candidate(site, date, postId, ("day1", time)) ==
              Planned(ExampleInstant(site, date), "sharedate_1_" + NatToString(postId))
  {
    ExampleSlotInstant(site, date, time);
    ExampleSlotName(postId, time);
  }

  lemma ExampleSlotInstant(site: Site, date: Date, time: string)
    requires ParseShareTime(time) == ClockTime(9, 0, "am")
    ensures SlotInstant(site, date, ("day1", time)) == ExampleInstant(site, date)
  {
    DayOneKey();
  }

  lemma ExampleSlotName(postId: nat, time: string)
    ensures SlotName(("day1", time), postId) == "sharedate_1_" + NatToString(postId)
  {
    DayOneKey();
    assert "sharedate_" + "1" + "_" == "sharedate_1_";
  }

  /** A single planned slot whose instant lies ahead is planned alone. */
  lemma SinglePlan(now: int, c: Planned)
    requires c.instant > now
    ensures Plan(now, [c]) == map[c.instant := c.name]
  {
    assert [c][..0] == [];
  }

  /** The example post, with a time string that reads as 9:00am (such as
      "9:00am" itself), plans exactly one share, 'sharedate_1_<id>', when
      day 1 at 9:00 is still ahead. */
  lemma OverrideExample(opts: Options, site: Site, date: Date, postId: nat, time: string)
    requires ParseShareTime(time) == ClockTime(9, 0, "am")
    requires site.now < ExampleInstant(site, date)
    ensures GetTimestamps(opts, site, ExampleMeta(time), date, postId) ==
              map[ExampleInstant(site, date) := "sharedate_1_" + NatToString(postId)]
  {
    ExampleTimeSource(opts, site, time);
    ExampleCandidate(site, date, postId, time);
    var c := Candidate(site, date, postId, ("day1", time));
    assert Candidates(site, date, postId, [("day1", time)]) == [c];
    SinglePlan(site.now, c);
  }

  /** The worked example with the time string "9:00am" itself, in the documented H:MMam/pm format. */
  lemma OverrideNineAm(opts: Options, site: Site, date: Date, postId: nat)
    requires site.now < ExampleInstant(site, date)
    ensures GetTimestamps(opts, site, ExampleMeta("9:00am"), date, postId) ==
              map[ExampleInstant(site, date) := "sharedate_1_" + NatToString(postId)]
  {
    ParseNineAm();
    OverrideExample(opts, site, date, postId, "9:00am");
  }
}

=== FILE: publish_gate.dfy ===
/** The publish gate `ppp_share_on_publish`: whether a post status transition
    fires the 'ppp_share_on_publish' action. The allow-list filter is an
    explicit function. */
module PublishGate {
  import opened Php
  import opened Settings

  /** The fields of the post object the gate reads; `status` is None when
      `post_status` is not set. */
  datatype Post = Post(password: string, postType: string, status: Option<string>)

  /** The allowed post types: the keys of the 'post_types' option (none when
      unset), passed through the 'ppp_schedule_share_post_types' filter. */
  function AllowedPostTypes(opts: Options, typesFilter: set<string> -> set<string>): set<string> {
    typesFilter(if opts.postTypes.Some? then opts.postTypes.value else {})
  }

  /** True when `ppp_share_on_publish($new_status, $old_status, $post)` fires the action. */
  function ShareOnPublish(newStatus: string, oldStatus: string, post: Post, opts: Options,
                          typesFilter: set<string> -> set<string>): (fires: bool)
    ensures fires <==>
              && post.password == ""
              && newStatus == "publish" && oldStatus != "publish"
              && post.status.Some?
              && post.postType in AllowedPostTypes(opts, typesFilter)
  {
    if post.password != "" then false
    else if newStatus == "publish" && oldStatus != "publish" then
      if post.status.None? || post.postType !in AllowedPostTypes(opts, typesFilter) then false
      else true
    else false
  }

  /** A password-protected post never fires, whatever the statuses and allow-list. */
  lemma ProtectedPostNeverFires(newStatus: string, oldStatus: string, post: Post, opts: Options,
                                typesFilter: set<string> -> set<string>)
    requires post.password != ""
    ensures !ShareOnPublish(newStatus, oldStatus, post, opts, typesFilter)
  {
  }

  /** Saving an already published post never fires. */
  lemma RepublishNeverFires(post: Post, opts: Options, typesFilter: set<string> -> set<string>)
    ensures !ShareOnPublish("publish", "publish", post, opts, typesFilter)
  {
  }

  /** Along a history of statuses, the gate fires only on entering 'publish',
      so between two firings the post must have left 'publish'. */
  lemma FiresOncePerPublication(history: seq<string>, post: Post, opts: Options,
                                typesFilter: set<string> -> set<string>, i: nat, j: nat)
    requires i < j && j + 1 < |history|
    requires ShareOnPublish(history[i + 1], history[i], post, opts, typesFilter)
    requires ShareOnPublish(history[j + 1], history[j], post, opts, typesFilter)
    ensures exists k :: i + 1 < k <= j && history[k] != "publish"
  {
    assert history[j] != "publish";
  }
}

=== FILE: settings.dfy ===
/** The plugin's global options array (`$ppp_options`), reduced to the entries
    the share functions read. WordPress's option store is replaced by this
    explicit, immutable value. */
module Settings {
  import opened Php

  datatype Options = Options(
    postTypes: Option<set<string>>,  // keys of 'post_types', when that entry is set
    days: map<string, string>,       // 'days': 'day<d>' => 'on' for the enabled days
    times: map<string, string>,      // 'times': 'day<d>' => 'H:MMam/pm'
    enableDebug: Option<string>)     // 'enable_debug', when set
}
